=== FILE: README.md ===
# E-commerce dashboard: filter-and-count core in Dafny

This project models the non-charting logic of a Dash dashboard over an
e-commerce product table (`dash_ecommerce_estatistica.py`).
The dashboard loads one CSV file. It cleans the file once, offers three
dropdowns (gender, season, brand) and, on every change, filters the rows
and rebuilds ten charts and an "insights" text block.

The model covers:

- **Loading** (`Schema`): a raw row has optional cells, and a raw frame
  records which columns its header had. `LoadAndPrepare` produces cleaned
  `Record`s. The four categorical columns (`Gênero`, `Marca`, `Material`,
  `Temporada`) always hold a string, with `"Não definido"` for a missing
  one. The six default numeric columns always exist, as optional values.
- **Dropdown option lists** (`Dropdowns`): `"all"` followed by the column's
  distinct values in Python string order (`StringOrder`).
- **Filter engine** (`FilterEngine`): three selectors. `None`, `""` and
  `"all"` are wildcards. Any other value is an exact, case-sensitive
  equality test. The three gender, season and brand stages run in turn.
- **Counting** (`Counting`): pandas `value_counts()` (distinct values with
  their counts, most frequent first), `head(n)`, and `mode().iat[0]`.
- **Builders** (`Builders`): each Plotly figure becomes a
  `Figure = NoData(message) | Chart(payload)`. The payload is the data the
  chart is drawn from: the subset's rows, the heatmap's columns, the
  (value, count) pairs of the pie and top-brand bars, or the rows of the
  box plots. `BuildInsights` gives the row count and the most common brand.
  `UpdateAll` wires filter, builders and insights together, as the callback does.

`Seqs` holds generic sequence facts. `Filter` is boolean-mask indexing
`d[mask]`, and `IsSubseq` is order-preserving selection. Counts are
`multiset(s)[v]`.

Notes on the code's behaviour:

- In pandas, the `mode()` of a column whose values are all distinct is
  every value, not an empty result. So the `'N/A'` branch for the most
  common brand is reachable only on an empty column. The insights block
  computes it only for a non-empty subset, so it always names a brand
  (`BuildInsights`).
- A selector is also a wildcard when it is `None` or the empty string
  (Python truthiness), not only when it is `"all"`.
- The order of `value_counts` among values with equal counts is not
  specified. `TopCounts` promises only non-increasing counts, and that no
  omitted value is more frequent than a kept one.
- `Series.mode()` returns its modes sorted, so `mode().iat[0]` is the least
  (in string order) of the most frequent values. `Mode` states this.

One consequence of the code, modelled as written: a category value that is
literally `"all"` (or empty) cannot be selected on its own. Picking it in
its dropdown acts as the wildcard.

## Model

| member | source | states |
|---|---|---|
| Schema.LoadAndPrepare | dash_ecommerce_estatistica.py:37-48 | rows keep their number and order; a categorical value that was present is kept; a missing value, or one in a column absent from the header, becomes "Não definido"; a numeric column that existed is unchanged; a created numeric column is missing in every row |
| Schema.LoadCleanIsIdentity | dash_ecommerce_estatistica.py:37-47 | data that already has every column and no missing categorical value comes out of the cleaning pass unchanged |
| Schema.LoadIdempotent | dash_ecommerce_estatistica.py:37-47 | cleaning the cleaned data again changes nothing |
| StringOrder.SortedDistinct | dash_ecommerce_estatistica.py:53-55 | `sorted(unique(...))`: strictly increasing in Python string order, and holds exactly the values that occur in the input |
| StringOrder.StrictlySortedUnique | dash_ecommerce_estatistica.py:53-55 | two strictly increasing lists with the same elements are equal, so a set of values has only one sorted distinct listing |
| Dropdowns.OptionList | dash_ecommerce_estatistica.py:53-55 | starts with "all"; the rest is strictly increasing (sorted, no duplicates) and holds a value exactly when some row has it in that column |
| Dropdowns.OptionListIsCanonical | dash_ecommerce_estatistica.py:53-55 | the list after "all" is equal to any strictly increasing listing of the column's values |
| Dropdowns.OptionListCoversRows | dash_ecommerce_estatistica.py:53-55 | every row's value in the column appears among the options |
| FilterEngine.Stage | dash_ecommerce_estatistica.py:63-68 | a wildcard stage returns its input; otherwise each row occurs in the output exactly as often as in the input when its column equals the selector, and never when it does not |
| FilterEngine.FilterDf | dash_ecommerce_estatistica.py:60-69 | a row is in the result exactly when it is in the base and passes every non-wildcard selector by exact equality; each such row keeps its multiplicity, and every other row occurs zero times |
| FilterEngine.FilterDfIsSelection | dash_ecommerce_estatistica.py:60-69 | the three successive stages equal one order-preserving filter by the conjunction of the three tests |
| FilterEngine.FilterDfIsSubseq | dash_ecommerce_estatistica.py:60-69 | the result is an order-preserving subsequence of the base, no longer than it |
| FilterEngine.FilterDfAllWildcard | dash_ecommerce_estatistica.py:62-69 | with all three selectors wildcard, the result is the base unchanged |
| FilterEngine.FilterDfIdempotent | dash_ecommerce_estatistica.py:60-69 | filtering the result again with the same selectors returns it unchanged |
| Counting.ValueCounts | dash_ecommerce_estatistica.py:146 | each distinct value exactly once; a value is listed exactly when it occurs; each count is the true number of occurrences; counts are non-increasing |
| Counting.TopCounts | dash_ecommerce_estatistica.py:146 | `value_counts().head(n)`: at most n entries, distinct, with exact counts, non-increasing; with fewer than n entries every value is listed; a value left out occurs no more often than any listed value |
| Counting.TopCountsNonEmpty | dash_ecommerce_estatistica.py:155 | with a non-empty column and n >= 1 the top list has at least one entry |
| Counting.Mode | dash_ecommerce_estatistica.py:239 | none exactly on an empty column; otherwise a value of the column whose count is maximal, and the least in string order among the values with that count |
| Builders.ColumnCount | dash_ecommerce_estatistica.py:146 | the count `value_counts` gives a value equals the number of rows whose column holds it |
| Builders.BuildPlot | dash_ecommerce_estatistica.py:89-101 | the empty-subset guard of the histogram, scatter, mean-by-gender, price-density and trend builders (also lines 113-119, 129-141): the placeholder with the standard message exactly on an empty subset, otherwise a chart of the whole subset |
| Builders.BuildHeatmapCorr | dash_ecommerce_estatistica.py:103-111 | the insufficient-data placeholder exactly when no two listed columns hold a non-missing value, so always on an empty subset; otherwise the matrix spans, in list order, exactly the listed columns that hold some value |
| Builders.BuildPieGenero | dash_ecommerce_estatistica.py:121-127 | the placeholder exactly on an empty subset; otherwise distinct gender values, each the gender of some row and carrying its number of rows, covering every row's gender |
| Builders.BuildTopMarcas | dash_ecommerce_estatistica.py:143-150 | the placeholder exactly on an empty subset; otherwise at most `topn` distinct brands, each the brand of some row and carrying its number of rows (so at least one), non-increasing; with fewer than `topn` shown every row's brand is shown; any brand left out has no more rows than a brand shown |
| Builders.TopMaterials | dash_ecommerce_estatistica.py:155 | at most `topn` distinct materials that occur in the subset, at least one when the subset is non-empty and `topn >= 1`, every material when fewer than `topn` are listed; a material left out is no more frequent than one kept |
| Builders.BuildBoxByMaterial | dash_ecommerce_estatistica.py:152-160 | the placeholder exactly when the subset is empty or `topn` is 0: with `topn >= 1` the second guard never fires; the rows kept are an order-preserving subsequence holding each row with a top material as often as the subset does, and no other row; a dropped row's material has no more rows than a kept row's |
| Builders.TopRowsSelected | dash_ecommerce_estatistica.py:156 | the restriction to the top materials is a subsequence holding each row with one of those materials as often as the subset does, and no other row |
| Builders.TopRowsKept | dash_ecommerce_estatistica.py:152-158 | a non-empty subset with `topn >= 1` keeps at least one row after the restriction; with `topn` 0 no row is kept |
| Builders.TopRowsMostFrequent | dash_ecommerce_estatistica.py:155-156 | every dropped row's material is at most as frequent as every kept row's material |
| Builders.ModeLabel | dash_ecommerce_estatistica.py:239 | "N/A" on an empty column; otherwise a value of the column with maximal count, the least in string order among those with that count |
| Builders.BuildInsights | dash_ecommerce_estatistica.py:231-240 | the alert exactly on an empty subset; otherwise the row count and a brand of some row that has the most rows, the least in string order among brands with as many rows |
| Builders.Slot | dash_ecommerce_estatistica.py:218-229 | every chart slot is a placeholder on an empty subset; on a non-empty subset every slot but the heatmap is a chart; only the heatmap uses the insufficient-data text; each slot draws its own kind of chart: the five plots of the whole subset in their order; slots 2, 4, 7, 8 and 9 are exactly the heatmap over the default numeric columns, the gender pie, the top-10 brand bars, and the top-8-material box plots of price and of rating, built from the same subset |
| Builders.UpdateAll | dash_ecommerce_estatistica.py:214-241 | ten figures; the insights are the alert exactly when the filtered subset is empty; then all ten figures are placeholders; otherwise all but the heatmap are charts and the summary's total is the number of filtered rows (`len(dff)`) |
| Builders.UpdateAllTopBrand | dash_ecommerce_estatistica.py:216-239 | the brand printed as most common is a brand of the filtered subset with the most rows, the least in string order among brands with as many rows |
| Builders.UpdateAllLayout | dash_ecommerce_estatistica.py:216-229 | the figures come in the callback's output order: histogram, scatter, heatmap (with its own placeholder text), mean by gender, gender pie, price density, trend, top-brand bars (at most ten), then box plots of price and of rating; each figure is its builder applied to the filtered subset (the heatmap over the default numeric columns, the top 10 brands, the top 8 materials), so every builder's contract holds of its slot |

## Left out

- Reading the CSV file (`pd.read_csv`) and the `FileNotFoundError` path (lines 33-36) are file I/O. The model starts from the frame that was read.
- Columns other than the ten modelled ones (such as `Título`, used only as hover text) pass through the loader untouched. They are not modelled.
- Categorical cells of a non-string type are not modelled: every present categorical cell is a string.
- The Dash app, its layout, the callback registration and `app.run` (lines 165-213, 246-247) are UI and server plumbing.
- A `Chart` means the builder reaches its plotting call. Failures inside
  that call are not modelled. For example, the scatter passes
  `hover_data=['Título', 'Marca']` (line 99), and the loader never creates
  `Título`. On a file without that column, plotly express raises an error
  on every non-empty subset, and the whole callback fails.
- Plotly rendering is a foreign library call and is not modelled: histogram binning, scatter, pie, box, heatmap drawing, the LOWESS trend line and the styling of `safe_fig_empty`.
- Floating-point results are not modelled: the correlation values and `.round(2)` (line 108), the per-gender means (line 116), and the mean rating and price with `:.2f` formatting (lines 237-238).
- BuildPlot: for the mean-rating-by-gender chart the payload is the subset itself, not the per-gender means, because the means are floating point.
- BuildInsights: the summary carries the row count and the most common brand only, without the two means.
- TopCounts: the order among values with equal counts is not promised, because pandas does not fix it.
- The `topn` arguments are natural numbers. A negative `head(n)` (all rows but the last n in pandas) is never used by the dashboard, since both constants are positive.

=== FILE: builders.dfy ===
/** The ten chart builders, the insights block and the callback that runs
    them on the filtered subset. Plotly figures are replaced by a tagged
    result: a "no data" placeholder with its message, or the data the chart
    would be drawn from. */
module Builders {
  import opened Wrappers
  import opened Seqs
  import opened Schema
  import opened FilterEngine
  import opened Counting
  import opened StringOrder

  const TopNMarcas: nat := 10
  const TopNMateriais: nat := 8

  /** Placeholder text of every builder's empty-subset guard. */
  const NoDataMessage: string := "Sem dados para os filtros selecionados"
  /** Placeholder text of the correlation builder's guard. */
  const CorrelationMessage: string := "Correlação: dados numéricos insuficientes"
  /** Text of the insights alert on an empty subset. */
  const InsightsAlert: string := "Sem dados para os filtros selecionados."
  /** Text shown for the most common brand when there is no mode. */
  const NotApplicable: string := "N/A"

  /** The charts drawn directly from the subset's rows. */
  datatype PlotKind = RatingHistogram | PriceVsReviews | MeanRatingByGender | PriceDensity | DiscountVsRating

  /** What a chart is drawn from. */
  datatype Payload =
    | Plot(kind: PlotKind, rows: seq<Record>)
    | Heatmap(columns: seq<NumCol>)
    | Pie(counts: seq<Entry>)
    | Bars(counts: seq<Entry>)
    | Boxes(y: NumCol, rows: seq<Record>)

  datatype Figure = NoData(message: string) | Chart(payload: Payload)

  /** The insights block: an alert, or the row count and most common brand
      (the two means it also prints are not modelled). */
  datatype Insights = Alert(text: string) | Summary(total: nat, topBrand: string)

  datatype Dashboard = Dashboard(figures: seq<Figure>, insights: Insights)

  /** The rows whose categorical column `c` equals `v`. */
  function RowsWith(d: seq<Record>, c: CatCol, v: string): seq<Record> {
    Filter(d, (r: Record) => Cat(r, c) == v)
  }

  /** The count `value_counts` reports for `v` is the number of rows whose
      column holds `v`. */
  lemma {:induction false} ColumnCount(d: seq<Record>, c: CatCol, v: string)
    ensures multiset(Column(d, c))[v] == |RowsWith(d, c, v)|
    decreases |d|
  {
    if |d| > 0 {
      ColumnCount(d[1..], c, v);
      assert Column(d, c) == [Cat(d[0], c)] + Column(d[1..], c);
    }
  }

  /** A value of a column is the value of some row. */
  lemma ColumnValueOccurs(d: seq<Record>, c: CatCol, v: string)
    requires v in Column(d, c)
    ensures exists k :: 0 <= k < |d| && Cat(d[k], c) == v
  {
  }

  /** The material of a row of `d` is a value of its material column. */
  lemma MaterialOccurs(d: seq<Record>, s: Record)
    requires s in d
    ensures s.material in Column(d, Material)
  {
    var k :| 0 <= k < |d| && d[k] == s;
    assert Column(d, Material)[k] == s.material;
  }

  /** The builders that only guard against an empty subset and hand the
      rows to the plotting library: rating histogram, price against review
      count, mean rating by gender, price density, discount against rating. */
  function BuildPlot(kind: PlotKind, d: seq<Record>): (f: Figure)
    ensures f.NoData? <==> |d| == 0
    ensures f.NoData? ==> f.message == NoDataMessage
    ensures f.Chart? ==> f.payload.Plot? && f.payload.kind == kind && f.payload.rows == d
  {
    if |d| == 0 then NoData(NoDataMessage) else Chart(Plot(kind, d))
  }

  /** Column `c` holds at least one non-missing value (`d[c].notna().any()`). */
  predicate HasValue(d: seq<Record>, c: NumCol) {
    exists i :: 0 <= i < |d| && Num(d[i], c).Some?
  }

  /** `build_heatmap_corr`: the matrix is drawn over the listed columns that
      hold some value, in list order, and only when there are at least two
      of them; otherwise the insufficient-data placeholder. */
  function BuildHeatmapCorr(d: seq<Record>, cols: seq<NumCol>): (f: Figure)
    ensures f.NoData? ==> f.message == CorrelationMessage
    ensures f.NoData? <==> !exists i, j :: 0 <= i < j < |cols| && HasValue(d, cols[i]) && HasValue(d, cols[j])
    ensures |d| == 0 ==> f.NoData?
    ensures f.Chart? ==> f.payload.Heatmap? && IsSubseq(f.payload.columns, cols)
    ensures f.Chart? ==> forall c :: c in f.payload.columns <==> c in cols && HasValue(d, c)
  {
    var valid := (c: NumCol) => HasValue(d, c);
    var cs := Filter(cols, valid);
    FilterAtLeastTwo(cols, valid);
    FilterIsSubseq(cols, valid);
    if |cs| < 2 then NoData(CorrelationMessage) else Chart(Heatmap(cs))
  }

  /** `build_pie_genero`: the share of each gender value. */
  function BuildPieGenero(d: seq<Record>): (f: Figure)
    ensures f.NoData? <==> |d| == 0
    ensures f.NoData? ==> f.message == NoDataMessage
    ensures f.Chart? ==> f.payload.Pie? && KeysDistinct(f.payload.counts)
    ensures f.Chart? ==> forall i :: 0 <= i < |f.payload.counts| ==>
      f.payload.counts[i].1 == |RowsWith(d, Genero, f.payload.counts[i].0)|
    ensures f.Chart? ==> forall i :: 0 <= i < |d| ==> IsKey(f.payload.counts, d[i].genero)
    ensures f.Chart? ==> forall i :: 0 <= i < |f.payload.counts| ==>
      exists k :: 0 <= k < |d| && d[k].genero == f.payload.counts[i].0
  {
    if |d| == 0 then NoData(NoDataMessage)
    else
      var vc := ValueCounts(Column(d, Genero));
      forall i | 0 <= i < |vc| ensures vc[i].1 == |RowsWith(d, Genero, vc[i].0)| {
        ColumnCount(d, Genero, vc[i].0);
      }
      forall i | 0 <= i < |d| ensures IsKey(vc, d[i].genero) {
        assert Column(d, Genero)[i] == d[i].genero;
      }
      forall i | 0 <= i < |vc| ensures exists k :: 0 <= k < |d| && d[k].genero == vc[i].0 {
        ColumnValueOccurs(d, Genero, vc[i].0);
      }
      Chart(Pie(vc))
  }

  /** `build_top_marcas`: at most `topn` brands, distinct, each a brand of
      some row and with the number of rows of that brand, most frequent
      first; every brand is shown when fewer than `topn` are; a brand left
      out has no more rows than any brand shown. */
  function BuildTopMarcas(d: seq<Record>, topn: nat): (f: Figure)
    ensures f.NoData? <==> |d| == 0
    ensures f.NoData? ==> f.message == NoDataMessage
    ensures f.Chart? ==> f.payload.Bars?
    ensures f.Chart? ==> |f.payload.counts| <= topn
    ensures f.Chart? ==> KeysDistinct(f.payload.counts) && CountsNonIncreasing(f.payload.counts)
    ensures f.Chart? ==> forall i :: 0 <= i < |f.payload.counts| ==>
      f.payload.counts[i].1 == |RowsWith(d, Marca, f.payload.counts[i].0)|
    ensures f.Chart? ==> forall k, i :: 0 <= k < |d| && !IsKey(f.payload.counts, d[k].marca) && 0 <= i < |f.payload.counts| ==>
      |RowsWith(d, Marca, d[k].marca)| <= f.payload.counts[i].1
    ensures f.Chart? && |f.payload.counts| < topn ==> forall k :: 0 <= k < |d| ==> IsKey(f.payload.counts, d[k].marca)
    ensures f.Chart? ==> forall i :: 0 <= i < |f.payload.counts| ==>
      exists k :: 0 <= k < |d| && d[k].marca == f.payload.counts[i].0
    ensures f.Chart? ==> forall i :: 0 <= i < |f.payload.counts| ==> f.payload.counts[i].1 >= 1
  {
    if |d| == 0 then NoData(NoDataMessage)
    else
      var top := TopCounts(Column(d, Marca), topn);
      BrandCountsAreRowCounts(d, topn);
      BrandsShownOccur(d, topn);
      Chart(Bars(top))
  }

  /** The counts of the top brands, and of every row's brand, are numbers
      of rows. */
  lemma BrandCountsAreRowCounts(d: seq<Record>, topn: nat)
    ensures var top := TopCounts(Column(d, Marca), topn);
      forall i :: 0 <= i < |top| ==> top[i].1 == |RowsWith(d, Marca, top[i].0)|
    ensures forall k :: 0 <= k < |d| ==>
      multiset(Column(d, Marca))[d[k].marca] == |RowsWith(d, Marca, d[k].marca)|
    ensures forall k :: 0 <= k < |d| ==> d[k].marca in Column(d, Marca)
  {
    var col := Column(d, Marca);
    var top := TopCounts(col, topn);
    forall i | 0 <= i < |top| ensures top[i].1 == |RowsWith(d, Marca, top[i].0)| {
      ColumnCount(d, Marca, top[i].0);
    }
    forall k | 0 <= k < |d|
      ensures d[k].marca in col
      ensures multiset(col)[d[k].marca] == |RowsWith(d, Marca, d[k].marca)|
    {
      assert col[k] == d[k].marca;
      ColumnCount(d, Marca, d[k].marca);
    }
  }

  /** Every brand in the top list is the brand of some row, so its count
      is at least one. */
  lemma BrandsShownOccur(d: seq<Record>, topn: nat)
    ensures var top := TopCounts(Column(d, Marca), topn);
      forall i :: 0 <= i < |top| ==> top[i].1 >= 1 && exists k :: 0 <= k < |d| && d[k].marca == top[i].0
  {
    var col := Column(d, Marca);
    var top := TopCounts(col, topn);
    forall i | 0 <= i < |top|
      ensures top[i].1 >= 1 && exists k :: 0 <= k < |d| && d[k].marca == top[i].0
    {
      var v := top[i].0;
      assert IsKey(top, v);
      assert v in col;
      assert top[i].1 == multiset(col)[v];
      var k :| 0 <= k < |col| && col[k] == v;
      assert d[k].marca == v;
    }
  }

  /** `value_counts().head(topn).index` of the material column: at most
      `topn` distinct materials of the subset, all of them when there are
      fewer, none less frequent than a material left out. */
  function TopMaterials(d: seq<Record>, topn: nat): (ms: seq<string>)
    ensures |ms| <= topn
    ensures NoDuplicates(ms)
    ensures forall m :: m in ms ==> m in Column(d, Material)
    ensures |ms| < topn ==> forall m :: m in Column(d, Material) ==> m in ms
    ensures |d| > 0 && topn >= 1 ==> |ms| >= 1
    ensures forall x, y :: x in ms && y in Column(d, Material) && y !in ms ==>
      multiset(Column(d, Material))[y] <= multiset(Column(d, Material))[x]
  {
    var col := Column(d, Material);
    var top := TopCounts(col, topn);
    assert |d| > 0 && topn >= 1 ==> |top| >= 1 by {
      if |d| > 0 && topn >= 1 {
        TopCountsNonEmpty(col, topn);
      }
    }
    forall x, y | x in Keys(top) && y in col && y !in Keys(top)
      ensures multiset(col)[y] <= multiset(col)[x]
    {
      var i :| 0 <= i < |top| && top[i].0 == x;
    }
    var ms := Keys(top);
    assert NoDuplicates(ms) by {
      forall i, j | 0 <= i < j < |ms| ensures ms[i] != ms[j] {
        assert ms[i] == top[i].0 && ms[j] == top[j].0;
      }
    }
    ms
  }

  /** The rows whose material is in `ms`, in their original order. */
  function RowsIn(d: seq<Record>, ms: seq<string>): seq<Record> {
    Filter(d, (r: Record) => r.material in ms)
  }

  /** `build_box_by_material`: the rows whose material is one of the `topn`
      most frequent, in their original order and with their multiplicity.
      With a non-empty subset and `topn >= 1` the restriction is never
      empty, so the builder's second emptiness check never fires. */
  function BuildBoxByMaterial(d: seq<Record>, y: NumCol, topn: nat): (f: Figure)
    ensures f.NoData? ==> f.message == NoDataMessage
    ensures f.NoData? <==> |d| == 0 || topn == 0
    ensures f.Chart? ==> f.payload.Boxes? && f.payload.y == y && IsSubseq(f.payload.rows, d)
    ensures f.Chart? ==> forall r :: r in f.payload.rows <==> r in d && r.material in TopMaterials(d, topn)
    ensures f.Chart? ==> forall r :: multiset(f.payload.rows)[r] ==
                                 if r.material in TopMaterials(d, topn) then multiset(d)[r] else 0
    ensures f.Chart? ==> forall r, s :: r in f.payload.rows && s in d && s !in f.payload.rows ==>
      |RowsWith(d, Material, s.material)| <= |RowsWith(d, Material, r.material)|
  {
    if |d| == 0 then NoData(NoDataMessage)
    else
      var ms := TopMaterials(d, topn);
      var sub := RowsIn(d, ms);
      TopRowsKept(d, topn);
      TopRowsSelected(d, topn);
      TopRowsMostFrequent(d, topn);
      if |sub| == 0 then NoData(NoDataMessage) else Chart(Boxes(y, sub))
  }

  /** The restriction to the top materials is a subsequence holding exactly
      the rows with one of those materials, each as often as in `d`. */
  lemma TopRowsSelected(d: seq<Record>, topn: nat)
    ensures IsSubseq(RowsIn(d, TopMaterials(d, topn)), d)
    ensures forall r :: r in RowsIn(d, TopMaterials(d, topn)) <==> r in d && r.material in TopMaterials(d, topn)
    ensures forall r :: multiset(RowsIn(d, TopMaterials(d, topn)))[r] ==
                       if r.material in TopMaterials(d, topn) then multiset(d)[r] else 0
  {
    var ms := TopMaterials(d, topn);
    var inTop := (r: Record) => r.material in ms;
    FilterIsSubseq(d, inTop);
    forall r ensures multiset(RowsIn(d, ms))[r] == if r.material in ms then multiset(d)[r] else 0 {
      FilterOccurrences(d, inTop, r);
    }
  }

  /** Some row survives the restriction when there is a row and `topn >= 1`;
      none does when `topn == 0`. */
  lemma TopRowsKept(d: seq<Record>, topn: nat)
    ensures |d| > 0 && topn >= 1 ==> |RowsIn(d, TopMaterials(d, topn))| >= 1
    ensures topn == 0 ==> |RowsIn(d, TopMaterials(d, topn))| == 0
  {
    var ms := TopMaterials(d, topn);
    RowsInNonEmpty(d, ms);
    if topn >= 1 && |d| > 0 {
      MaterialOccurs(d, d[0]);
      var k :| 0 <= k < |d| && Column(d, Material)[k] == ms[0];
      assert d[k].material in ms;
    }
  }

  /** The restriction to `ms` keeps some row exactly when some row's
      material is in `ms`. */
  lemma RowsInNonEmpty(d: seq<Record>, ms: seq<string>)
    ensures |RowsIn(d, ms)| >= 1 <==> exists k :: 0 <= k < |d| && d[k].material in ms
  {
    FilterNonEmpty(d, (r: Record) => r.material in ms);
  }

  /** A row dropped by the restriction has a material with no more rows
      than the material of any row kept. */
  lemma TopRowsMostFrequent(d: seq<Record>, topn: nat)
    ensures forall r, s :: r in RowsIn(d, TopMaterials(d, topn)) && s in d && s !in RowsIn(d, TopMaterials(d, topn)) ==>
      |RowsWith(d, Material, s.material)| <= |RowsWith(d, Material, r.material)|
  {
    var ms := TopMaterials(d, topn);
    var sub := RowsIn(d, ms);
    var col := Column(d, Material);
    TopRowsSelected(d, topn);
    forall r, s | r in sub && s in d && s !in sub
      ensures |RowsWith(d, Material, s.material)| <= |RowsWith(d, Material, r.material)|
    {
      assert r.material in ms;
      assert s.material !in ms;
      MaterialOccurs(d, s);
      assert multiset(col)[s.material] <= multiset(col)[r.material];
      ColumnCount(d, Material, s.material);
      ColumnCount(d, Material, r.material);
    }
  }

  /** The text printed for the most common value: the first mode, or the
      not-applicable marker when the mode is empty. */
  function ModeLabel(col: seq<string>): (shown: string)
    ensures |col| == 0 ==> shown == NotApplicable
    ensures |col| > 0 ==> shown in col && forall v :: v in col ==> multiset(col)[v] <= multiset(col)[shown]
    ensures |col| > 0 ==> forall v :: v in col && multiset(col)[v] == multiset(col)[shown] ==> !Less(v, shown)
  {
    match Mode(col)
    case Some(m) => m
    case None => NotApplicable
  }

  /** The insights block. On an empty subset, the alert; otherwise the row
      count and the most common brand: the least, in string order, of the
      brands with the most rows. */
  function BuildInsights(d: seq<Record>): (ins: Insights)
    ensures ins.Alert? <==> |d| == 0
    ensures ins.Alert? ==> ins.text == InsightsAlert
    ensures ins.Summary? ==> ins.total == |d|
    ensures ins.Summary? ==> exists i :: 0 <= i < |d| && d[i].marca == ins.topBrand
    ensures ins.Summary? ==> forall i :: 0 <= i < |d| ==>
      |RowsWith(d, Marca, d[i].marca)| <= |RowsWith(d, Marca, ins.topBrand)|
    ensures ins.Summary? ==> forall i :: 0 <= i < |d| && |RowsWith(d, Marca, d[i].marca)| == |RowsWith(d, Marca, ins.topBrand)| ==>
      !Less(d[i].marca, ins.topBrand)
  {
    if |d| == 0 then Alert(InsightsAlert)
    else
      var col := Column(d, Marca);
      var m := ModeLabel(col);
      var k :| 0 <= k < |col| && col[k] == m;
      assert d[k].marca == m;
      forall i | 0 <= i < |d|
        ensures |RowsWith(d, Marca, d[i].marca)| <= |RowsWith(d, Marca, m)|
        ensures |RowsWith(d, Marca, d[i].marca)| == |RowsWith(d, Marca, m)| ==> !Less(d[i].marca, m)
      {
        assert col[i] == d[i].marca;
        ColumnCount(d, Marca, d[i].marca);
        ColumnCount(d, Marca, m);
      }
      Summary(|d|, m)
  }

  /** The chart in slot `i` of the page (0 to 9, the order of the
      callback's outputs), built from the subset `d`. On an empty subset every
      slot shows the placeholder; on a non-empty one every slot but the
      correlation heatmap (slot 2) shows a chart. Each slot draws its own
      kind of chart, and only the heatmap has its own placeholder text. */
  function Slot(i: nat, d: seq<Record>): (f: Figure)
    requires i < 10
    ensures |d| == 0 ==> f.NoData?
    ensures i != 2 ==> (f.Chart? <==> |d| > 0)
    ensures f.NoData? ==> f.message == if i == 2 then CorrelationMessage else NoDataMessage
    ensures f.Chart? && i == 0 ==> f.payload.Plot? && f.payload.kind == RatingHistogram && f.payload.rows == d
    ensures f.Chart? && i == 1 ==> f.payload.Plot? && f.payload.kind == PriceVsReviews && f.payload.rows == d
    ensures f.Chart? && i == 2 ==> f.payload.Heatmap?
    ensures f.Chart? && i == 3 ==> f.payload.Plot? && f.payload.kind == MeanRatingByGender && f.payload.rows == d
    ensures f.Chart? && i == 4 ==> f.payload.Pie?
    ensures f.Chart? && i == 5 ==> f.payload.Plot? && f.payload.kind == PriceDensity && f.payload.rows == d
    ensures f.Chart? && i == 6 ==> f.payload.Plot? && f.payload.kind == DiscountVsRating && f.payload.rows == d
    ensures f.Chart? && i == 7 ==> f.payload.Bars? && |f.payload.counts| <= TopNMarcas
    ensures f.Chart? && i == 8 ==> f.payload.Boxes? && f.payload.y == Preco
    ensures f.Chart? && i == 9 ==> f.payload.Boxes? && f.payload.y == Nota
    ensures i == 2 ==> f == BuildHeatmapCorr(d, NumericColsDefault)
    ensures i == 4 ==> f == BuildPieGenero(d)
    ensures i == 7 ==> f == BuildTopMarcas(d, TopNMarcas)
    ensures i == 8 ==> f == BuildBoxByMaterial(d, Preco, TopNMateriais)
    ensures i == 9 ==> f == BuildBoxByMaterial(d, Nota, TopNMateriais)
  {
    match i
    case 0 => BuildPlot(RatingHistogram, d)
    case 1 => BuildPlot(PriceVsReviews, d)
    case 2 => BuildHeatmapCorr(d, NumericColsDefault)
    case 3 => BuildPlot(MeanRatingByGender, d)
    case 4 => BuildPieGenero(d)
    case 5 => BuildPlot(PriceDensity, d)
    case 6 => BuildPlot(DiscountVsRating, d)
    case 7 => BuildTopMarcas(d, TopNMarcas)
    case 8 => BuildBoxByMaterial(d, Preco, TopNMateriais)
    case _ => BuildBoxByMaterial(d, Nota, TopNMateriais)
  }

  /** `update_all`: filter, then build the ten charts and the insights from
      the subset. */
  function UpdateAll(base: seq<Record>, genero: Selector, temporada: Selector, marca: Selector): (db: Dashboard)
    ensures |db.figures| == 10
    ensures db.insights.Alert? <==> |FilterDf(base, genero, temporada, marca)| == 0
    ensures |FilterDf(base, genero, temporada, marca)| == 0 ==> forall i :: 0 <= i < 10 ==> db.figures[i].NoData?
    ensures forall i :: 0 <= i < 10 && i != 2 ==>
      (db.figures[i].Chart? <==> |FilterDf(base, genero, temporada, marca)| > 0)
    ensures db.insights.Alert? ==> db.insights.text == InsightsAlert
    ensures db.insights.Summary? ==> db.insights.total == |FilterDf(base, genero, temporada, marca)|
  {
    var dff := FilterDf(base, genero, temporada, marca);
    Dashboard(seq(10, i requires 0 <= i < 10 => Slot(i, dff)), BuildInsights(dff))
  }

  /** The most common brand the page prints is a brand of the filtered
      subset with the most rows, the least in string order among brands
      with as many rows. */
  lemma UpdateAllTopBrand(base: seq<Record>, genero: Selector, temporada: Selector, marca: Selector)
    ensures var dff := FilterDf(base, genero, temporada, marca);
      var ins := UpdateAll(base, genero, temporada, marca).insights;
      ins.Summary? ==>
        (exists k :: 0 <= k < |dff| && dff[k].marca == ins.topBrand) &&
        forall i :: 0 <= i < |dff| ==>
          |RowsWith(dff, Marca, dff[i].marca)| <= |RowsWith(dff, Marca, ins.topBrand)| &&
          (|RowsWith(dff, Marca, dff[i].marca)| == |RowsWith(dff, Marca, ins.topBrand)| ==> !Less(dff[i].marca, ins.topBrand))
  {
    var dff := FilterDf(base, genero, temporada, marca);
    assert UpdateAll(base, genero, temporada, marca).insights == BuildInsights(dff);
  }

  /** The page's layout: the figures come in the callback's output order,
      each slot drawing its own kind of chart from the filtered subset, so
      every builder's contract applies to its slot of the page. */
  lemma UpdateAllLayout(base: seq<Record>, genero: Selector, temporada: Selector, marca: Selector)
    ensures var dff := FilterDf(base, genero, temporada, marca);
      var fs := UpdateAll(base, genero, temporada, marca).figures;
      (fs[0].Chart? ==> fs[0].payload == Plot(RatingHistogram, dff)) &&
      (fs[1].Chart? ==> fs[1].payload == Plot(PriceVsReviews, dff)) &&
      (fs[2].NoData? ==> fs[2].message == CorrelationMessage) &&
      (fs[2].Chart? ==> fs[2].payload.Heatmap?) &&
      (fs[3].Chart? ==> fs[3].payload == Plot(MeanRatingByGender, dff)) &&
      (fs[4].Chart? ==> fs[4].payload.Pie?) &&
      (fs[5].Chart? ==> fs[5].payload == Plot(PriceDensity, dff)) &&
      (fs[6].Chart? ==> fs[6].payload == Plot(DiscountVsRating, dff)) &&
      (fs[7].Chart? ==> fs[7].payload.Bars? && |fs[7].payload.counts| <= TopNMarcas) &&
      (fs[8].Chart? ==> fs[8].payload.Boxes? && fs[8].payload.y == Preco) &&
      (fs[9].Chart? ==> fs[9].payload.Boxes? && fs[9].payload.y == Nota) &&
      fs[2] == BuildHeatmapCorr(dff, NumericColsDefault) &&
      fs[4] == BuildPieGenero(dff) &&
      fs[7] == BuildTopMarcas(dff, TopNMarcas) &&
      fs[8] == BuildBoxByMaterial(dff, Preco, TopNMateriais) &&
      fs[9] == BuildBoxByMaterial(dff, Nota, TopNMateriais)
  {
    var dff := FilterDf(base, genero, temporada, marca);
    var fs := UpdateAll(base, genero, temporada, marca).figures;
    forall i | 0 <= i < 10 ensures fs[i] == Slot(i, dff) { }
  }
}

=== FILE: counting.dfy ===
/** Integer counting over one column: pandas' `value_counts()`, its
    `head(n)`, and `mode().iat[0]`. Counts are `multiset(s)[v]`. */
module Counting {
  import opened Wrappers
  import opened Seqs
  import opened StringOrder

  /** A value of the column with its number of occurrences. */
  type Entry = (string, nat)

  ghost predicate CountsNonIncreasing(e: seq<Entry>) {
    forall i, j :: 0 <= i < j < |e| ==> e[i].1 >= e[j].1
  }

  ghost predicate KeysDistinct(e: seq<Entry>) {
    forall i, j :: 0 <= i < j < |e| ==> e[i].0 != e[j].0
  }

  /** Every entry carries the true count of its value in `s`. */
  ghost predicate CountsExact(e: seq<Entry>, s: seq<string>) {
    forall i :: 0 <= i < |e| ==> e[i].1 == multiset(s)[e[i].0]
  }

  ghost predicate IsKey(e: seq<Entry>, v: string) {
    exists i :: 0 <= i < |e| && e[i].0 == v
  }

  /** The values of a list of entries, in order (the `.index` of a
      `value_counts()` result). */
  function Keys(e: seq<Entry>): (k: seq<string>)
    ensures forall v :: v in k <==> IsKey(e, v)
  {
    var k := seq(|e|, i requires 0 <= i < |e| => e[i].0);
    forall v ensures v in k <==> IsKey(e, v) {
      if IsKey(e, v) {
        var i :| 0 <= i < |e| && e[i].0 == v;
        assert k[i] == v;
      }
    }
    k
  }

  /** Each distinct value of `s` with its count, in first-occurrence order. */
  function Tally(s: seq<string>): (t: seq<Entry>)
    ensures NoDuplicates(t)
    ensures CountsExact(t, s)
    ensures forall v :: v in s <==> IsKey(t, v)
  {
    var d := Distinct(s);
    var t := seq(|d|, i requires 0 <= i < |d| => (d[i], multiset(s)[d[i]]));
    assert forall v :: IsKey(t, v) ==> v in d;
    assert forall v :: v in d ==> IsKey(t, v) by {
      forall v | v in d ensures IsKey(t, v) {
        var i :| 0 <= i < |d| && d[i] == v;
        assert t[i].0 == v;
      }
    }
    t
  }

  /** Inserts `e` in front of every entry with a count not above its own. */
  function InsertByCount(e: Entry, sorted: seq<Entry>): (r: seq<Entry>)
    requires CountsNonIncreasing(sorted)
    ensures CountsNonIncreasing(r)
    ensures multiset(r) == multiset(sorted) + multiset{e}
    decreases |sorted|
  {
    if |sorted| == 0 || e.1 >= sorted[0].1 then [e] + sorted
    else
      var t := InsertByCount(e, sorted[1..]);
      assert sorted == [sorted[0]] + sorted[1..];
      assert forall j :: 0 <= j < |t| ==> sorted[0].1 >= t[j].1 by {
        forall j | 0 <= j < |t| ensures sorted[0].1 >= t[j].1 {
          assert t[j] in multiset(t);
          assert t[j] == e || t[j] in sorted[1..];
        }
      }
      [sorted[0]] + t
  }

  /** A stable sort by decreasing count. */
  function SortByCount(t: seq<Entry>): (r: seq<Entry>)
    ensures CountsNonIncreasing(r)
    ensures multiset(r) == multiset(t)
    decreases |t|
  {
    if |t| == 0 then []
    else
      assert t == [t[0]] + t[1..];
      InsertByCount(t[0], SortByCount(t[1..]))
  }

  /** `s.value_counts()`: every distinct value of `s` exactly once, with its
      true count, most frequent first. The order among equal counts is
      first occurrence, but no caller relies on it. */
  function ValueCounts(s: seq<string>): (vc: seq<Entry>)
    ensures KeysDistinct(vc)
    ensures CountsExact(vc, s)
    ensures CountsNonIncreasing(vc)
    ensures forall v :: v in s <==> IsKey(vc, v)
  {
    var t := Tally(s);
    var vc := SortByCount(t);
    PermutationKeepsEntries(s, t, vc);
    PermutationNoDuplicates(t, vc);
    vc
  }

  /** Reordering a list of entries keeps its exact counts and its keys. */
  lemma PermutationKeepsEntries(s: seq<string>, t: seq<Entry>, vc: seq<Entry>)
    requires multiset(vc) == multiset(t)
    requires CountsExact(t, s)
    ensures CountsExact(vc, s)
    ensures forall v :: IsKey(vc, v) <==> IsKey(t, v)
  {
    forall i | 0 <= i < |vc| ensures vc[i].1 == multiset(s)[vc[i].0] {
      assert vc[i] in multiset(vc);
      assert vc[i] in t;
    }
    forall v ensures IsKey(vc, v) <==> IsKey(t, v) {
      if IsKey(vc, v) {
        var i :| 0 <= i < |vc| && vc[i].0 == v;
        assert vc[i] in multiset(vc);
        assert vc[i] in t;
      }
      if IsKey(t, v) {
        var i :| 0 <= i < |t| && t[i].0 == v;
        assert t[i] in multiset(t);
        assert t[i] in vc;
      }
    }
  }

  /** `value_counts().head(n)`: the `n` most frequent values (all of them
      when there are fewer), each with its true count, most frequent first.
      A value left out is never more frequent than any value kept. */
  function TopCounts(s: seq<string>, n: nat): (top: seq<Entry>)
    ensures |top| <= n
    ensures KeysDistinct(top)
    ensures CountsExact(top, s)
    ensures CountsNonIncreasing(top)
    ensures forall v :: IsKey(top, v) ==> v in s
    ensures |top| < n ==> forall v :: v in s ==> IsKey(top, v)
    ensures forall v, i :: v in s && !IsKey(top, v) && 0 <= i < |top| ==> multiset(s)[v] <= top[i].1
  {
    var vc := ValueCounts(s);
    var top := if n < |vc| then vc[..n] else vc;
    PrefixKeys(vc, top);
    PrefixProperties(s, vc, top);
    forall v, i | v in s && !IsKey(top, v) && 0 <= i < |top|
      ensures multiset(s)[v] <= top[i].1
    {
      LeftOutCount(s, vc, top, v, i);
    }
    top
  }

  /** Every value of a prefix is a value of the whole list. */
  lemma PrefixKeys(vc: seq<Entry>, top: seq<Entry>)
    requires |top| <= |vc| && top == vc[..|top|]
    ensures forall v :: IsKey(top, v) ==> IsKey(vc, v)
  {
  }

  /** A prefix of a sorted, exact, duplicate-free count list is one too. */
  lemma PrefixProperties(s: seq<string>, vc: seq<Entry>, top: seq<Entry>)
    requires KeysDistinct(vc) && CountsExact(vc, s) && CountsNonIncreasing(vc)
    requires |top| <= |vc| && top == vc[..|top|]
    ensures KeysDistinct(top) && CountsExact(top, s) && CountsNonIncreasing(top)
  {
  }

  /** A value of `s` that is missing from a prefix of the sorted counts
      is at most as frequent as any value in the prefix. */
  lemma LeftOutCount(s: seq<string>, vc: seq<Entry>, top: seq<Entry>, v: string, i: int)
    requires CountsExact(vc, s) && CountsNonIncreasing(vc)
    requires forall w :: w in s <==> IsKey(vc, w)
    requires |top| <= |vc| && top == vc[..|top|]
    requires v in s && !IsKey(top, v) && 0 <= i < |top|
    ensures multiset(s)[v] <= top[i].1
  {
  }

  /** With at least one row and `n >= 1`, the top list is not empty. */
  lemma TopCountsNonEmpty(s: seq<string>, n: nat)
    requires |s| > 0 && n >= 1
    ensures |TopCounts(s, n)| >= 1
  {
  }

  /** Among the candidates, the one with the highest count in `s`, the
      least in string order among those that tie. */
  function Best(s: seq<string>, cands: seq<string>): (b: string)
    requires |cands| > 0
    ensures b in cands
    ensures forall v :: v in cands ==>
      multiset(s)[v] < multiset(s)[b] || (multiset(s)[v] == multiset(s)[b] && !Less(v, b))
    decreases |cands|
  {
    if |cands| == 1 then
      LessIrreflexive(cands[0]);
      cands[0]
    else
      var b := Best(s, cands[1..]);
      var x := cands[0];
      assert cands == [x] + cands[1..];
      if multiset(s)[x] > multiset(s)[b] || (multiset(s)[x] == multiset(s)[b] && Less(x, b)) then
        LessIrreflexive(x);
        forall v | v in cands[1..] && multiset(s)[v] == multiset(s)[x]
          ensures !Less(v, x)
        {
          if Less(v, x) {
            LessTransitive(v, x, b);
          }
        }
        x
      else
        b
  }

  /** `mode().iat[0]`: pandas lists the modes sorted, so the first is the
      least of the most frequent values. `None` on an empty column, whose
      mode is empty. */
  function Mode(s: seq<string>): (m: Option<string>)
    ensures m.None? <==> |s| == 0
    ensures m.Some? ==> m.value in s
    ensures m.Some? ==> forall v :: v in s ==> multiset(s)[v] <= multiset(s)[m.value]
    ensures m.Some? ==> forall v :: v in s && multiset(s)[v] == multiset(s)[m.value] ==> !Less(v, m.value)
  {
    if |s| == 0 then None
    else
      assert s[0] in s;
      Some(Best(s, Distinct(s)))
  }
}

=== FILE: dropdowns.dfy ===
/** The option lists of the three filter dropdowns, computed once from the
    cleaned dataset: the wildcard followed by the column's distinct values,
    sorted. */
module Dropdowns {
  import opened Schema
  import opened StringOrder
  import opened FilterEngine

  /** `['all'] + sorted(d[col].unique())`. Used for gender, season and brand. */
  function OptionList(d: seq<Record>, c: CatCol): (opts: seq<string>)
    ensures |opts| >= 1 && opts[0] == All
    ensures StrictlySorted(opts[1..])
    ensures forall v :: v in opts[1..] <==> exists i :: 0 <= i < |d| && Cat(d[i], c) == v
  {
    var col := Column(d, c);
    var vals := SortedDistinct(col);
    assert forall v :: v in col <==> exists i :: 0 <= i < |d| && Cat(d[i], c) == v by {
      forall v ensures v in col <==> exists i :: 0 <= i < |d| && Cat(d[i], c) == v {
        if exists i :: 0 <= i < |d| && Cat(d[i], c) == v {
          var i :| 0 <= i < |d| && Cat(d[i], c) == v;
          assert col[i] == v;
        }
      }
    }
    assert ([All] + vals)[1..] == vals;
    [All] + vals
  }

  /** The list after the wildcard is the only strictly increasing listing
      of the column's values: it is exactly `sorted(unique(...))`. */
  lemma OptionListIsCanonical(d: seq<Record>, c: CatCol, xs: seq<string>)
    requires StrictlySorted(xs)
    requires forall v :: v in xs <==> exists i :: 0 <= i < |d| && Cat(d[i], c) == v
    ensures OptionList(d, c) == [All] + xs
  {
    var opts := OptionList(d, c);
    StrictlySortedUnique(opts[1..], xs);
    assert opts == [opts[0]] + opts[1..];
  }

  /** The cell value of every row is offered in the dropdown. */
  lemma OptionListCoversRows(d: seq<Record>, c: CatCol, i: int)
    requires 0 <= i < |d|
    ensures Cat(d[i], c) in OptionList(d, c)
  {
  }
}

=== FILE: filter_engine.dfy ===
/** The filter engine: three dropdown selectors, each either a wildcard or
    an exact, case-sensitive value of one categorical column, ANDed. */
module FilterEngine {
  import opened Wrappers
  import opened Seqs
  import opened Schema

  /** The selector value that stands for "no constraint". */
  const All: string := "all"

  /** A dropdown value: `None` models Python's `None`. */
  type Selector = Option<string>

  /** Python truthiness of the selector plus the `!= 'all'` test: a
      selector is ignored when it is `None`, the empty string or `"all"`. */
  predicate IsWildcard(sel: Selector) {
    sel.None? || sel.value == "" || sel.value == All
  }

  /** Whether a cell value passes one selector. */
  predicate Accepts(sel: Selector, v: string) {
    IsWildcard(sel) || sel.value == v
  }

  /** Whether a row passes all three selectors. */
  predicate Matches(r: Record, genero: Selector, temporada: Selector, marca: Selector) {
    Accepts(genero, r.genero) && Accepts(temporada, r.temporada) && Accepts(marca, r.marca)
  }

  /** One `if sel and sel != 'all': d = d[d[col] == sel]` step. */
  function Stage(d: seq<Record>, c: CatCol, sel: Selector): (res: seq<Record>)
    ensures IsWildcard(sel) ==> res == d
    ensures forall x :: multiset(res)[x] == if Accepts(sel, Cat(x, c)) then multiset(d)[x] else 0
  {
    if IsWildcard(sel) then d
    else
      var keep := (x: Record) => Cat(x, c) == sel.value;
      forall x ensures multiset(Filter(d, keep))[x] == if keep(x) then multiset(d)[x] else 0 {
        FilterOccurrences(d, keep, x);
      }
      Filter(d, keep)
  }

  /** `filter_df`: the gender, season and brand stages applied in turn.
      Every row of the base that passes all three selectors is kept, as
      many times as it occurs, and no other row is. */
  function FilterDf(base: seq<Record>, genero: Selector, temporada: Selector, marca: Selector): (d: seq<Record>)
    ensures forall r :: multiset(d)[r] == if Matches(r, genero, temporada, marca) then multiset(base)[r] else 0
    ensures forall r :: r in d <==> r in base && Matches(r, genero, temporada, marca)
  {
    var d := Stage(Stage(Stage(base, Genero, genero), Temporada, temporada), Marca, marca);
    assert forall r :: r in d <==> r in multiset(d);
    assert forall r :: r in base <==> r in multiset(base);
    d
  }

  /** The predicate a stage filters by, wildcard included. */
  function StagePredicate(c: CatCol, sel: Selector): Record -> bool {
    (x: Record) => Accepts(sel, Cat(x, c))
  }

  /** A stage keeps the rows its selector accepts, in their original order. */
  lemma StageIsFilter(d: seq<Record>, c: CatCol, sel: Selector)
    ensures Stage(d, c, sel) == Filter(d, StagePredicate(c, sel))
  {
    if IsWildcard(sel) {
      FilterKeepsAll(d, StagePredicate(c, sel));
    } else {
      FilterExtensional(d, (x: Record) => Cat(x, c) == sel.value, StagePredicate(c, sel));
    }
  }

  /** The three successive stages select exactly what a single filter by
      the conjunction of the selectors selects. */
  lemma {:induction false} FilterDfIsSelection(base: seq<Record>, genero: Selector, temporada: Selector, marca: Selector)
    ensures FilterDf(base, genero, temporada, marca) == Filter(base, (r: Record) => Matches(r, genero, temporada, marca))
  {
    var p1 := StagePredicate(Genero, genero);
    var p2 := StagePredicate(Temporada, temporada);
    var p3 := StagePredicate(Marca, marca);
    var p12 := (x: Record) => p1(x) && p2(x);
    var p123 := (r: Record) => Matches(r, genero, temporada, marca);
    var d1 := Stage(base, Genero, genero);
    var d2 := Stage(d1, Temporada, temporada);
    StageIsFilter(base, Genero, genero);
    StageIsFilter(d1, Temporada, temporada);
    StageIsFilter(d2, Marca, marca);
    assert d1 == Filter(base, p1);
    FilterFilter(base, p1, p2, p12);
    assert d2 == Filter(base, p12);
    FilterFilter(base, p12, p3, p123);
  }

  /** The result keeps the rows in their original order. */
  lemma FilterDfIsSubseq(base: seq<Record>, genero: Selector, temporada: Selector, marca: Selector)
    ensures IsSubseq(FilterDf(base, genero, temporada, marca), base)
    ensures |FilterDf(base, genero, temporada, marca)| <= |base|
  {
    FilterDfIsSelection(base, genero, temporada, marca);
    FilterIsSubseq(base, (r: Record) => Matches(r, genero, temporada, marca));
  }

  /** Three wildcard selectors return the base unchanged. */
  lemma FilterDfAllWildcard(base: seq<Record>, genero: Selector, temporada: Selector, marca: Selector)
    requires IsWildcard(genero) && IsWildcard(temporada) && IsWildcard(marca)
    ensures FilterDf(base, genero, temporada, marca) == base
  {
  }

  /** Filtering the filtered data again with the same selectors is a no-op. */
  lemma FilterDfIdempotent(base: seq<Record>, genero: Selector, temporada: Selector, marca: Selector)
    ensures var d := FilterDf(base, genero, temporada, marca);
            FilterDf(d, genero, temporada, marca) == d
  {
    var d := FilterDf(base, genero, temporada, marca);
    var p := (r: Record) => Matches(r, genero, temporada, marca);
    FilterDfIsSelection(base, genero, temporada, marca);
    FilterDfIsSelection(d, genero, temporada, marca);
    FilterIdempotent(base, p);
  }
}

=== FILE: schema.dfy ===
/** The dataset's columns, the raw rows read from the CSV file, and the
    one-time cleaning pass that turns them into rows whose categorical
    fields are always defined and whose numeric columns always exist. */
module Schema {
  import opened Wrappers

  /** The four categorical columns used by filters and grouping. */
  datatype CatCol = Genero | Marca | Material | Temporada

  /** The six numeric columns of the default list, in the dashboard code's order. */
  datatype NumCol = Nota | NAvaliacoes | Desconto | Preco | NotaMinMax | NAvaliacoesMinMax

  /** Label written into every missing categorical cell. */
  const Undefined: string := "Não definido"

  /** The default numeric column list, in its declared order. */
  const NumericColsDefault: seq<NumCol> :=
    [Nota, NAvaliacoes, Desconto, Preco, NotaMinMax, NAvaliacoesMinMax]

  /** A row as read from the file: any cell may be missing. */
  datatype RawRecord = RawRecord(
    genero: Option<string>, marca: Option<string>,
    material: Option<string>, temporada: Option<string>,
    nota: Option<real>, nAvaliacoes: Option<real>, desconto: Option<real>,
    preco: Option<real>, notaMinMax: Option<real>, nAvaliacoesMinMax: Option<real>)

  /** A frame as read from the file. A column missing from the header is
      not in `catColumns` / `numColumns`; the cells rows carry for it are
      meaningless and are never consulted. */
  datatype RawFrame = RawFrame(catColumns: set<CatCol>, numColumns: set<NumCol>, rows: seq<RawRecord>)

  /** A cleaned row: every categorical value is defined; a numeric value
      may still be missing. All ten columns exist by construction. */
  datatype Record = Record(
    genero: string, marca: string, material: string, temporada: string,
    nota: Option<real>, nAvaliacoes: Option<real>, desconto: Option<real>,
    preco: Option<real>, notaMinMax: Option<real>, nAvaliacoesMinMax: Option<real>)

  function RawCat(r: RawRecord, c: CatCol): Option<string> {
    match c
    case Genero => r.genero
    case Marca => r.marca
    case Material => r.material
    case Temporada => r.temporada
  }

  function RawNum(r: RawRecord, c: NumCol): Option<real> {
    match c
    case Nota => r.nota
    case NAvaliacoes => r.nAvaliacoes
    case Desconto => r.desconto
    case Preco => r.preco
    case NotaMinMax => r.notaMinMax
    case NAvaliacoesMinMax => r.nAvaliacoesMinMax
  }

  /** The value of categorical column `c` in a cleaned row. */
  function Cat(r: Record, c: CatCol): string {
    match c
    case Genero => r.genero
    case Marca => r.marca
    case Material => r.material
    case Temporada => r.temporada
  }

  /** The value of numeric column `c` in a cleaned row. */
  function Num(r: Record, c: NumCol): Option<real> {
    match c
    case Nota => r.nota
    case NAvaliacoes => r.nAvaliacoes
    case Desconto => r.desconto
    case Preco => r.preco
    case NotaMinMax => r.notaMinMax
    case NAvaliacoesMinMax => r.nAvaliacoesMinMax
  }

  /** The values of categorical column `c`, row by row (`d[col]`). */
  function Column(d: seq<Record>, c: CatCol): seq<string> {
    seq(|d|, i requires 0 <= i < |d| => Cat(d[i], c))
  }

  /** One categorical cell after cleaning: `fillna` on an existing column,
      the constant label on a column that had to be created. */
  function FillCat(present: bool, cell: Option<string>): string {
    if present then
      match cell
      case Some(v) => v
      case None => Undefined
    else Undefined
  }

  /** One numeric cell after cleaning: an existing column is left as it is,
      a created one is all missing. */
  function FillNum(present: bool, cell: Option<real>): Option<real> {
    if present then cell else None
  }

  function CleanRecord(f: RawFrame, r: RawRecord): Record {
    Record(
      FillCat(Genero in f.catColumns, r.genero),
      FillCat(Marca in f.catColumns, r.marca),
      FillCat(Material in f.catColumns, r.material),
      FillCat(Temporada in f.catColumns, r.temporada),
      FillNum(Nota in f.numColumns, r.nota),
      FillNum(NAvaliacoes in f.numColumns, r.nAvaliacoes),
      FillNum(Desconto in f.numColumns, r.desconto),
      FillNum(Preco in f.numColumns, r.preco),
      FillNum(NotaMinMax in f.numColumns, r.notaMinMax),
      FillNum(NAvaliacoesMinMax in f.numColumns, r.nAvaliacoesMinMax))
  }

  /** The cleaning pass of the loader. Rows keep their number and order; a
      categorical value that was present is kept and every other one becomes
      the undefined label; a numeric column that existed is untouched and a
      created one is missing in every row. */
  function LoadAndPrepare(f: RawFrame): (d: seq<Record>)
    ensures |d| == |f.rows|
    ensures forall i, c :: 0 <= i < |d| && c in f.catColumns && RawCat(f.rows[i], c).Some? ==>
      Cat(d[i], c) == RawCat(f.rows[i], c).value
    ensures forall i, c :: 0 <= i < |d| && (c !in f.catColumns || RawCat(f.rows[i], c).None?) ==>
      Cat(d[i], c) == Undefined
    ensures forall i, c :: 0 <= i < |d| && c in f.numColumns ==> Num(d[i], c) == RawNum(f.rows[i], c)
    ensures forall i, c :: 0 <= i < |d| && c !in f.numColumns ==> Num(d[i], c).None?
  {
    seq(|f.rows|, i requires 0 <= i < |f.rows| => CleanRecord(f, f.rows[i]))
  }

  /** The raw frame that holds exactly a cleaned dataset: every column in
      the header and every categorical cell filled. */
  function AsRaw(d: seq<Record>): (f: RawFrame)
    ensures |f.rows| == |d|
  {
    RawFrame(
      {Genero, Marca, Material, Temporada},
      {Nota, NAvaliacoes, Desconto, Preco, NotaMinMax, NAvaliacoesMinMax},
      seq(|d|, i requires 0 <= i < |d| =>
        RawRecord(Some(d[i].genero), Some(d[i].marca), Some(d[i].material), Some(d[i].temporada),
                  d[i].nota, d[i].nAvaliacoes, d[i].desconto, d[i].preco,
                  d[i].notaMinMax, d[i].nAvaliacoesMinMax)))
  }

  /** Cleaning a frame that is already clean changes nothing: the loader is
      the identity on data that satisfies its invariants. */
  lemma LoadCleanIsIdentity(d: seq<Record>)
    ensures LoadAndPrepare(AsRaw(d)) == d
  {
  }

  /** Running the cleaning pass a second time (on the cleaned data, now with
      every column present) gives back the same data. */
  lemma LoadIdempotent(f: RawFrame)
    ensures LoadAndPrepare(AsRaw(LoadAndPrepare(f))) == LoadAndPrepare(f)
  {
    LoadCleanIsIdentity(LoadAndPrepare(f));
  }
}

=== FILE: seqs.dfy ===
/** Generic facts about sequences used by the dashboard model: boolean-mask
    selection (`Filter`), distinct values in first-occurrence order, and the
    order-preserving subsequence relation. Counting is `multiset(s)[x]`. */
module Seqs {

  /** No element occurs twice. */
  ghost predicate NoDuplicates<T>(s: seq<T>) {
    forall i, j :: 0 <= i < j < |s| ==> s[i] != s[j]
  }

  /** `a` can be obtained from `b` by deleting elements, keeping order. */
  ghost predicate IsSubseq<T>(a: seq<T>, b: seq<T>)
    decreases |b|
  {
    if |a| == 0 then true
    else if |b| == 0 then false
    else if a[0] == b[0] then IsSubseq(a[1..], b[1..])
    else IsSubseq(a, b[1..])
  }

  /** Rows of `s` for which `keep` holds, in their original order: the
      model of indexing a frame with a boolean mask, `d[mask]`. */
  function Filter<T>(s: seq<T>, keep: T -> bool): (r: seq<T>)
    ensures |r| <= |s|
    ensures forall i :: 0 <= i < |r| ==> r[i] in s && keep(r[i])
    ensures forall i :: 0 <= i < |s| && keep(s[i]) ==> s[i] in r
    decreases |s|
  {
    if |s| == 0 then []
    else if keep(s[0]) then [s[0]] + Filter(s[1..], keep)
    else Filter(s[1..], keep)
  }

  /** The distinct elements of `s`, each listed at its first occurrence. */
  function Distinct<T(==)>(s: seq<T>): (r: seq<T>)
    ensures NoDuplicates(r)
    ensures forall i :: 0 <= i < |r| ==> r[i] in s
    ensures forall i :: 0 <= i < |s| ==> s[i] in r
    ensures |r| <= |s|
    decreases |s|
  {
    if |s| == 0 then []
    else
      var init := s[..|s| - 1];
      assert s == init + [s[|s| - 1]];
      var d := Distinct(init);
      if s[|s| - 1] in d then d else d + [s[|s| - 1]]
  }

  /** Filtering keeps relative order: the result is a subsequence. */
  lemma {:induction false} FilterIsSubseq<T>(s: seq<T>, keep: T -> bool)
    ensures IsSubseq(Filter(s, keep), s)
    decreases |s|
  {
    if |s| > 0 {
      FilterIsSubseq(s[1..], keep);
      var r := Filter(s, keep);
      if keep(s[0]) {
        assert r[0] == s[0] && r[1..] == Filter(s[1..], keep);
      } else {
        SubseqSkipHead(r, s);
      }
    }
  }

  /** If `a` is a subsequence of the tail of `b`, it is one of `b`. */
  lemma {:induction false} SubseqSkipHead<T>(a: seq<T>, b: seq<T>)
    requires |b| > 0 && IsSubseq(a, b[1..])
    ensures IsSubseq(a, b)
    decreases |b|, 1
  {
    if |a| > 0 && a[0] == b[0] {
      SubseqDropHead(a, b[1..]);
    }
  }

  /** Dropping the first element of a subsequence leaves a subsequence. */
  lemma {:induction false} SubseqDropHead<T>(a: seq<T>, b: seq<T>)
    requires |a| > 0 && IsSubseq(a, b)
    ensures IsSubseq(a[1..], b)
    decreases |b|, 2
  {
    if |a| > 1 {
      if a[0] == b[0] {
        SubseqSkipHead(a[1..], b);
      } else {
        SubseqDropHead(a, b[1..]);
        SubseqSkipHead(a[1..], b);
      }
    }
  }

  /** Every occurrence of a kept value survives, and no other value does:
      the count of `x` in the result is its count in `s` when `keep(x)`,
      and zero otherwise. */
  lemma {:induction false} FilterOccurrences<T>(s: seq<T>, keep: T -> bool, x: T)
    ensures multiset(Filter(s, keep))[x] == if keep(x) then multiset(s)[x] else 0
    decreases |s|
  {
    if |s| > 0 {
      FilterOccurrences(s[1..], keep, x);
      assert s == [s[0]] + s[1..];
    }
  }

  /** A filter whose predicate holds of every element changes nothing. */
  lemma {:induction false} FilterKeepsAll<T>(s: seq<T>, keep: T -> bool)
    requires forall x :: x in s ==> keep(x)
    ensures Filter(s, keep) == s
    decreases |s|
  {
    if |s| > 0 {
      FilterKeepsAll(s[1..], keep);
      assert s == [s[0]] + s[1..];
    }
  }

  /** Two predicates that agree on the elements of `s` select the same rows. */
  lemma {:induction false} FilterExtensional<T>(s: seq<T>, p: T -> bool, q: T -> bool)
    requires forall x :: x in s ==> p(x) == q(x)
    ensures Filter(s, p) == Filter(s, q)
    decreases |s|
  {
    if |s| > 0 {
      FilterExtensional(s[1..], p, q);
    }
  }

  /** Filtering twice is filtering once by the conjunction `both`. */
  lemma {:induction false} FilterFilter<T>(s: seq<T>, p: T -> bool, q: T -> bool, both: T -> bool)
    requires forall x :: both(x) == (p(x) && q(x))
    ensures Filter(Filter(s, p), q) == Filter(s, both)
    decreases |s|
  {
    if |s| > 0 {
      FilterFilter(s[1..], p, q, both);
      if p(s[0]) {
        assert Filter(s, p) == [s[0]] + Filter(s[1..], p);
        assert Filter(s, p)[1..] == Filter(s[1..], p);
      }
    }
  }

  /** Filtering is idempotent. */
  lemma FilterIdempotent<T>(s: seq<T>, keep: T -> bool)
    ensures Filter(Filter(s, keep), keep) == Filter(s, keep)
  {
  }

  /** Some element passes the filter exactly when some position of `s`
      holds an element that passes. */
  lemma FilterNonEmpty<T>(s: seq<T>, keep: T -> bool)
    ensures |Filter(s, keep)| >= 1 <==> exists i :: 0 <= i < |s| && keep(s[i])
  {
  }

  /** At least two elements pass the filter exactly when two distinct
      positions of `s` hold elements that pass. */
  lemma {:induction false} FilterAtLeastTwo<T>(s: seq<T>, keep: T -> bool)
    ensures |Filter(s, keep)| >= 2 <==> exists i, j :: 0 <= i < j < |s| && keep(s[i]) && keep(s[j])
    decreases |s|
  {
    if |s| > 0 {
      var t := s[1..];
      FilterAtLeastTwo(t, keep);
      FilterNonEmpty(t, keep);
      if exists i, j :: 0 <= i < j < |s| && keep(s[i]) && keep(s[j]) {
        var i, j :| 0 <= i < j < |s| && keep(s[i]) && keep(s[j]);
        assert t[j - 1] == s[j];
        if i > 0 {
          assert t[i - 1] == s[i];
        }
      }
      if keep(s[0]) && exists k :: 0 <= k < |t| && keep(t[k]) {
        var k :| 0 <= k < |t| && keep(t[k]);
        assert s[k + 1] == t[k];
      }
      if exists i, j :: 0 <= i < j < |t| && keep(t[i]) && keep(t[j]) {
        var i, j :| 0 <= i < j < |t| && keep(t[i]) && keep(t[j]);
        assert s[i + 1] == t[i] && s[j + 1] == t[j];
      }
    }
  }

  /** A sequence without duplicates holds each value at most once. */
  lemma {:induction false} NoDuplicatesOccurrences<T>(s: seq<T>, x: T)
    requires NoDuplicates(s)
    ensures multiset(s)[x] <= 1
    decreases |s|
  {
    if |s| > 0 {
      assert s == [s[0]] + s[1..];
      assert NoDuplicates(s[1..]) by {
        forall i, j | 0 <= i < j < |s[1..]| ensures s[1..][i] != s[1..][j] {
          assert s[1..][i] == s[i + 1] && s[1..][j] == s[j + 1];
        }
      }
      NoDuplicatesOccurrences(s[1..], x);
      if s[0] == x {
        forall k | 0 <= k < |s[1..]| ensures s[1..][k] != x {
          assert s[1..][k] == s[k + 1];
        }
      }
    }
  }

  /** A value stored at two positions occurs at least twice. */
  lemma RepeatedOccurrences<T>(s: seq<T>, i: int, j: int)
    requires 0 <= i < j < |s| && s[i] == s[j]
    ensures multiset(s)[s[i]] >= 2
  {
    assert s == s[..i] + [s[i]] + s[i + 1..j] + [s[j]] + s[j + 1..];
  }

  /** A permutation of a duplicate-free sequence is duplicate-free. */
  lemma PermutationNoDuplicates<T>(a: seq<T>, b: seq<T>)
    requires NoDuplicates(a) && multiset(a) == multiset(b)
    ensures NoDuplicates(b)
  {
    forall i, j | 0 <= i < j < |b| ensures b[i] != b[j] {
      if b[i] == b[j] {
        RepeatedOccurrences(b, i, j);
        NoDuplicatesOccurrences(a, b[i]);
      }
    }
  }
}

=== FILE: string_order.dfy ===
/** Python's ordering of `str` values and the `sorted(set(...))` idiom the
    dropdown option lists are built with. */
module StringOrder {

  /** `a < b` on Python strings: lexicographic by code point, a proper
      prefix before its extensions. */
  predicate Less(a: string, b: string)
    decreases |a|
  {
    if |a| == 0 then |b| > 0
    else if |b| == 0 then false
    else if a[0] < b[0] then true
    else if a[0] == b[0] then Less(a[1..], b[1..])
    else false
  }

  lemma {:induction false} LessIrreflexive(a: string)
    ensures !Less(a, a)
    decreases |a|
  {
    if |a| > 0 {
      LessIrreflexive(a[1..]);
    }
  }

  lemma {:induction false} LessTransitive(a: string, b: string, c: string)
    requires Less(a, b) && Less(b, c)
    ensures Less(a, c)
    decreases |a|
  {
    if |a| > 0 && a[0] == b[0] && b[0] == c[0] {
      LessTransitive(a[1..], b[1..], c[1..]);
    }
  }

  /** Any two distinct strings are ordered one way or the other. */
  lemma {:induction false} LessTotal(a: string, b: string)
    ensures a == b || Less(a, b) || Less(b, a)
    decreases |a|
  {
    if |a| > 0 && |b| > 0 && a[0] == b[0] {
      LessTotal(a[1..], b[1..]);
      if a[1..] == b[1..] {
        assert a == [a[0]] + a[1..] && b == [b[0]] + b[1..];
      }
    }
  }

  lemma {:induction false} LessAsymmetric(a: string, b: string)
    requires Less(a, b)
    ensures !Less(b, a)
    decreases |a|
  {
    if |a| > 0 && a[0] == b[0] {
      LessAsymmetric(a[1..], b[1..]);
    }
  }

  /** Strictly increasing, hence also free of duplicates. */
  ghost predicate StrictlySorted(s: seq<string>) {
    forall i, j :: 0 <= i < j < |s| ==> Less(s[i], s[j])
  }

  /** Adds `x` to a strictly sorted list unless it is already there. */
  function InsertUnique(x: string, s: seq<string>): (r: seq<string>)
    requires StrictlySorted(s)
    ensures StrictlySorted(r)
    ensures forall y :: y in r <==> y == x || y in s
    decreases |s|
  {
    if |s| == 0 then [x]
    else if x == s[0] then s
    else if Less(x, s[0]) then
      assert forall j :: 0 < j < |s| ==> Less(x, s[j]) by {
        forall j | 0 < j < |s| ensures Less(x, s[j]) {
          LessTransitive(x, s[0], s[j]);
        }
      }
      [x] + s
    else
      LessTotal(x, s[0]);
      var t := InsertUnique(x, s[1..]);
      assert forall j :: 0 <= j < |t| ==> Less(s[0], t[j]) by {
        forall j | 0 <= j < |t| ensures Less(s[0], t[j]) {
          assert t[j] == x || t[j] in s[1..];
        }
      }
      [s[0]] + t
  }

  /** `sorted(set(s))`: the distinct values of `s` in increasing order. */
  function SortedDistinct(s: seq<string>): (r: seq<string>)
    ensures StrictlySorted(r)
    ensures forall y :: y in r <==> y in s
    decreases |s|
  {
    if |s| == 0 then [] else InsertUnique(s[0], SortedDistinct(s[1..]))
  }

  /** A strictly sorted list is determined by its elements: there is
      exactly one sorted, duplicate-free listing of a set of strings. */
  lemma {:induction false} StrictlySortedUnique(a: seq<string>, b: seq<string>)
    requires StrictlySorted(a) && StrictlySorted(b)
    requires forall y :: y in a <==> y in b
    ensures a == b
    decreases |a|
  {
    if |a| > 0 {
      assert a[0] in b;
      assert b[0] in a;
      assert a[0] == b[0] by {
        var i :| 0 <= i < |b| && b[i] == a[0];
        var j :| 0 <= j < |a| && a[j] == b[0];
        if a[0] != b[0] {
          assert Less(b[0], a[0]) && Less(a[0], b[0]);
          LessAsymmetric(a[0], b[0]);
        }
      }
      forall y ensures y in a[1..] <==> y in b[1..] {
        TailMembers(a, y);
        TailMembers(b, y);
      }
      StrictlySortedUnique(a[1..], b[1..]);
      assert a == [a[0]] + a[1..] && b == [b[0]] + b[1..];
    } else {
      if |b| > 0 {
        HeadIsMember(b);
      }
    }
  }

  lemma HeadIsMember(s: seq<string>)
    requires |s| > 0
    ensures s[0] in s
  {
  }

  /** The tail of a strictly sorted list holds every element but the first. */
  lemma TailMembers(a: seq<string>, y: string)
    requires StrictlySorted(a) && |a| > 0
    ensures y in a[1..] <==> y in a && y != a[0]
  {
    if y in a[1..] {
      var k :| 0 <= k < |a[1..]| && a[1..][k] == y;
      assert Less(a[0], a[k + 1]);
      LessIrreflexive(a[0]);
    }
    if y in a && y != a[0] {
      var k :| 0 <= k < |a| && a[k] == y;
      assert a[1..][k - 1] == y;
    }
  }
}

=== FILE: wrappers.dfy ===
/** The optional value used for every cell that may be missing (a pandas
    NaN or NA) and for a dropdown selector that may be unset. */
module Wrappers {

  datatype Option<+T> = None | Some(value: T)
}
